=== FILE: README.md ===
# Binomial lattice pricer: a Dafny model

This project models the lattice engine of `BinomialPricer`, a Cox–Ross–Rubinstein
binomial option pricer written in C++. The model covers four parts of the engine:

- The constructor. It validates the inputs, then derives the step length
  `dt = T / N`, the up factor `u = exp(sigma sqrt(dt))`, the down factor `d = 1 / u`
  and the risk-neutral up probability `p`. Two special cases are handled: a zero
  step sets `u = d = 1, p = 0.5`, and `|u - d| < 1e-12` sets `p = 0.5`. Finally `p`
  is clamped into `[0, 1]`.
- The four pricing loops: European and American, call and put. Each writes `N + 1`
  terminal payoffs into an array and collapses it in place, one level at a time.
- The closed-form one-step delta and two-step gamma for calls and puts.
- The second implementation file, which repeats the constructor and the European
  loops but whose American prices return `0.0`.

## Modelling choices

- Doubles are mathematical reals. `std::exp` and `std::sqrt` are function-valued
  fields of `RealMath.Transcendentals`. Every proof may use the facts in
  `RealMath.Sound`:
  - `exp(0) = 1`;
  - `exp > 0`, and `exp(x) >= 1` for `x >= 0`;
  - `sqrt(x) >= 0` for `x >= 0`.
- Some results also assume `RealMath.ExpReciprocal`, that is
  `exp(x) exp(-x) = 1`:
  - `Parameters.DiscountAtMostOne` and `Parameters.DiscountCancelsGrowth`;
  - `Lattice.UnitForwardGrowth`, `Lattice.RiskNeutralGrowth` and `Lattice.EuropeanParity`;
  - `EarlyExercise.NoEarlyExercise`.
- `std::pow(x, j)` with an integer exponent is the exact recursive `RealMath.Pow`.
- `Lattice.NodeValue` is the recursive lattice definition: the value at node
  `(i, j)`, reached after `i` steps with `j` up moves.
- `Induction.Price` is the single in-place loop. The option kind (`Call` / `Put`)
  and the exercise style (`European` / `American`) are passed as tags, so this one
  method stands for all four loops of `include/binomial_pricer.h`.
- `Induction.Price` also stands for the two European loops of
  `src/binomial_pricer.cpp`, which are textually the same.
- Both European puts compute the discount before the terminal loop
  (include/binomial_pricer.h:67, src/binomial_pricer.cpp:69), and the other loops
  compute it after. The order makes no difference to the value.
- The constructor bodies of the two files are identical, so one
  `Parameters.Construct` models both.
- The order results (non-negativity, dominance, monotonicity) are stated for any
  pricer satisfying `Lattice.Shaped`. `Lattice.ValidShape` shows that every
  constructed pricer satisfies it.
- A zero divisor in a Greek gives a NaN or an infinity in IEEE arithmetic. Here it
  is the explicit `Greeks.NonFinite` outcome.

## Notes on the code

- The strike must be positive: `K = 0` throws the "S and K" error
  (include/binomial_pricer.h:14).
- The zero-length step is recognised by exact equality `dt == 0`
  (include/binomial_pricer.h:23), not by `dt` being merely close to zero.
- Whenever `|u - d| < 1e-12` the probability falls back to `p = 0.5`
  (include/binomial_pricer.h:34-36). Every input with `sigma = 0` and `T > 0` takes
  this branch, because then `u = exp(0) = 1 = d`. The spot then never moves, so it
  does not grow at the riskless rate. `EarlyExercise.FrozenLatticeExercise` gives
  such an input on which the American call exceeds the European call and
  `Call - Put` differs from `S - K D^N`.
- Delta is the one-step difference of the payoffs at `S u` and `S d`
  (include/binomial_pricer.h:124-141). It does not roll option values back through
  the lattice. Gamma is likewise built from payoffs at the two-step nodes.
- Put–call parity is proved in the lattice's own discounting, `S - K D^N` with
  `D = exp(-r dt)`, not in the continuous form `S - K exp(-rT)`.
- Parity and "the American call equals the European call when r >= 0" are both
  proved only when `|u - d| >= 1e-12` and `d <= exp(r dt) <= u`, so that `p` is
  the unclamped risk-neutral probability, or when `T = 0`. Left out says why.

## Model

| member | source | states |
|---|---|---|
| Parameters.Validate | include/binomial_pricer.h:10-21 | Accepts exactly when N > 0, S > 0, K > 0, sigma >= 0 and T >= 0. Each rejection is the first failing check in source order, and holds exactly when the earlier checks pass and this one fails. |
| Parameters.Construct | include/binomial_pricer.h:7-43 | Fails exactly on inadmissible inputs, with the error the validation throws first. On success it stores the inputs unchanged, including the exp and sqrt it was given, and yields a pricer satisfying the invariant Valid. src/binomial_pricer.cpp:8-45 repeats the same constructor. |
| Parameters.RejectsTestInputs | tests/main_test.cpp:19-23 | S = 0 throws the "S and K" error, and N = 0 throws the "N must be greater than 0" error. |
| Parameters.Derive | include/binomial_pricer.h:22-43 | dt N = T, and dt = 0 exactly when T = 0. A zero step gives u = d = 1, p = 1/2. Otherwise u = exp(sigma sqrt dt). Always u d = 1, u >= 1 >= d > 0, and 0 <= p <= 1. p = 1/2 when \|u - d\| < 1e-12. When \|u - d\| >= 1e-12 and d <= exp(r dt) <= u, p makes the expected growth the riskless one, p u + (1 - p) d = exp(r dt). When \|u - d\| >= 1e-12 and exp(r dt) is below d or above u, the clamp pins p to 0 or to 1. The implementation file repeats this at src/binomial_pricer.cpp:24-45. |
| Parameters.RiskyStep | include/binomial_pricer.h:29-43 | For a positive step: d = 1/u with u >= 1; p = 1/2 when \|u - d\| < 1e-12; the clamp; and, when \|u - d\| >= 1e-12, the risk-neutral identity inside the bracket d <= exp(r dt) <= u, with the end points outside it. |
| Parameters.StepLength | include/binomial_pricer.h:22 | T / N splits T into N equal non-negative steps and is zero exactly when T is. |
| Parameters.StepFactors | include/binomial_pricer.h:31-32 | With sigma >= 0 and dt > 0 the up factor is at least 1, and 1/u lies in (0, 1] and undoes it. |
| Parameters.RiskNeutral | include/binomial_pricer.h:40 | The unclamped probability q satisfies q u + (1 - q) d = growth. It lies in [0, 1] when growth is within [d, u], is negative below d, and exceeds 1 above u. |
| RealMath.Abs | include/binomial_pricer.h:34 | std::fabs: the result is non-negative and is either the argument or its negation. |
| RealMath.Ratio | include/binomial_pricer.h:40 | The quotient times the divisor gives back the dividend. It takes the dividend's sign and compares with 1 as the dividend compares with the divisor. |
| RealMath.Clamp | include/binomial_pricer.h:43 | The result lies in [lo, hi]. It is the input when the input is inside, and the nearer end point otherwise. |
| Parameters.ValidFacts | include/binomial_pricer.h:10-43 | Every constructed pricer has N, S, K > 0, u d = 1, u >= 1 >= d > 0, p in [0, 1], a positive discount, and u = d exactly when u = 1. A zero maturity gives u = d = 1, p = 1/2 and discount 1. |
| Parameters.Martingale | include/binomial_pricer.h:40-43 | When \|u - d\| >= 1e-12 and d <= exp(r dt) <= u, the stored p gives an expected one-step growth equal to exp(r dt). |
| Parameters.Discount | include/binomial_pricer.h:54 | The per-step discount exp(-r dt) that every loop multiplies by; it is positive for any exp satisfying Sound. |
| Parameters.DiscountAtMostOne | include/binomial_pricer.h:54 | Assuming ExpReciprocal, with r >= 0 the per-step discount exp(-r dt) lies in (0, 1]. |
| RealMath.Max | include/binomial_pricer.h:52 | std::max: the result is at least both arguments and is one of them. |
| RealMath.Pow | include/binomial_pricer.h:51 | std::pow with an integer exponent: a positive base gives a positive power, and base 1 gives 1. |
| Lattice.Spot | include/binomial_pricer.h:96 | The spot S u^j d^(i-j) of node (i, j), the S_ij of the American loops and, at i = N, the ST of every terminal loop (line 51). SpotSteps, SpotPositive and SpotMonotone state its properties. |
| Lattice.NodeValue | include/binomial_pricer.h:46-62 | The recursive lattice: the payoff at maturity, otherwise the discounted expectation of the two successors, floored by the exercise payoff for American exercise (lines 95-98). Induction.Price proves the loops compute its root. |
| Lattice.Payoff | include/binomial_pricer.h:51-52 | The payoff is non-negative and at least the intrinsic value S - K or K - S. It equals either that value or 0. |
| Lattice.SpotSteps | include/binomial_pricer.h:51 | An up move multiplies the node spot S u^j d^(i-j) by u, and a down move multiplies it by d. |
| Lattice.Recombines | include/binomial_pricer.h:32 | Because d = 1/u, an up move followed by a down move returns to the same spot. |
| Lattice.ValidShape | include/binomial_pricer.h:10-43 | Every constructed pricer has a positive spot and strike, 0 < d <= u, p in [0, 1] and a positive discount. These are the facts the order proofs below use. |
| Lattice.SpotPositive | include/binomial_pricer.h:96 | Every node spot is positive. |
| Lattice.SpotMonotone | include/binomial_pricer.h:96 | Within a level, the spot does not decrease in the number of up moves. |
| Lattice.PayoffOrdered | include/binomial_pricer.h:52 | Call payoffs do not decrease in the spot, and put payoffs do not increase. |
| Lattice.HoldMonotone | include/binomial_pricer.h:59 | The discounted expectation is monotone in both successor values when p is in [0, 1] and the discount is non-negative. |
| Lattice.HoldLinear | include/binomial_pricer.h:59 | The discounted expectation is linear: a difference of two hold values is the hold value of the differences. |
| Lattice.NodeNonNegative | include/binomial_pricer.h:46-81 | For such a pricer, every node value of every kind and style is non-negative, so every price is too. |
| Lattice.EarlyExerciseFloor | include/binomial_pricer.h:95-98 | An American node is worth at least its exercise payoff and, before maturity, at least its hold value. |
| Lattice.AmericanDominatesEuropean | include/binomial_pricer.h:82-123 | At every node, the American value is at least the European value of the same kind. |
| Lattice.NodeMonotone | include/binomial_pricer.h:55-61 | Within a level, call values do not decrease and put values do not increase in the number of up moves. Each pass of the loop keeps the order set by the terminal payoffs. |
| Lattice.ZeroMaturityNode | include/binomial_pricer.h:22-28 | With T = 0, every node spot is S and every node value, for either style, is the immediate payoff max(S - K, 0) or max(K - S, 0). |
| Lattice.EuropeanParityNode | include/binomial_pricer.h:46-81 | At every node, the European call value minus the European put value is the lattice value of the forward contract paying S_N - K. |
| Lattice.ForwardClosedForm | include/binomial_pricer.h:55-61 | n steps before maturity, the forward contract at spot x is worth x g^n - K D^n. Here g is the discounted expected growth per step and D the discount. |
| Lattice.UnitForwardGrowth | include/binomial_pricer.h:40-54 | Assuming ExpReciprocal, when \|u - d\| >= 1e-12 and d <= exp(r dt) <= u (so p is the unclamped risk-neutral probability), or when T = 0, the discounted expected growth per step is exactly 1. |
| Lattice.EuropeanParity | include/binomial_pricer.h:46-81 | Under the same condition, the root prices satisfy Call - Put = S - K D^N. |
| Induction.Price | include/binomial_pricer.h:46-123 | The in-place backward induction returns the root value of the recursive lattice. The loop invariant: values[0..j) holds level i and values[j..i+1] still holds level i + 1. The European loops at src/binomial_pricer.cpp:48-84 are the same. |
| Induction.CollapseLevel | include/binomial_pricer.h:55-61 | One pass of the inner loop turns level i + 1, held in values[0..i+1], into level i, held in values[0..i]. Entry i + 1 keeps its level-(i + 1) value and later entries are untouched. |
| Induction.Update | include/binomial_pricer.h:59 | The node update as the loops write it: expectation times discount for the European loops (lines 59 and 77), the larger of the discounted expectation and the exercise payoff for the American loops (lines 95-98 and 116-119). NodeStep proves it equals the recursive node value. |
| Induction.NodeStep | include/binomial_pricer.h:59 | The loop's update, applied to the two successor values, gives the recursive node value. This holds for the European update (expectation times discount) and for the American one, at lines 95-98 and 116-119. |
| EarlyExercise.EuropeanCallAboveExercise | include/binomial_pricer.h:95-97 | With unit growth and a discount of at most 1, every European call node is worth at least the call's exercise payoff. |
| EarlyExercise.AmericanCallNode | include/binomial_pricer.h:91-99 | Under the same condition, the American call induction never takes the exercise branch. Its value equals the European call at every node. |
| EarlyExercise.NoEarlyExercise | include/binomial_pricer.h:82-102 | With r >= 0, and with \|u - d\| >= 1e-12 and d <= exp(r dt) <= u (or T = 0), the American call price equals the European call price. |
| EarlyExercise.FrozenLatticeExercise | include/binomial_pricer.h:31-36 | For S = 2, K = 1, r = 1, T = 1, N = 1, sigma = 0 and any exp with exp(-1) < 1, construction succeeds with u = d = 1 and p = 1/2. The European call is exp(-1), the American call is 1, and Call - Put differs from S - K D. |
| Greeks.Quotient | include/binomial_pricer.h:130 | IEEE division: non-finite exactly when the divisor is zero; otherwise the quotient times the divisor gives back the dividend. |
| Greeks.Slope | include/binomial_pricer.h:130 | Between two distinct spots, the payoff difference quotient lies in [0, 1] for a call and in [-1, 0] for a put. |
| Greeks.SlopeParity | include/binomial_pricer.h:130-139 | The put's difference quotient is the call's minus one. |
| Greeks.SlopeConvex | include/binomial_pricer.h:150-151 | Payoff difference quotients over consecutive intervals do not decrease, because the payoffs are convex. |
| Greeks.NodeSpots | include/binomial_pricer.h:144-146 | The middle two-step spot S u d is S. The one-step and two-step spots are strictly ordered when u ≠ d and coincide pairwise when u = d, which happens exactly when u = 1. |
| Greeks.FirstDifference | include/binomial_pricer.h:126-130 | For any two spots, the delta formula is non-finite exactly when they coincide. Otherwise, whichever spot is the larger, it lies in [0, 1] for a call and in [-1, 0] for a put. |
| Greeks.FirstDifferenceBounds | include/binomial_pricer.h:128-130 | For two distinct spots in either order, the payoff difference quotient lies in [0, 1] for a call and in [-1, 0] for a put. |
| Greeks.Delta | include/binomial_pricer.h:124-141 | Delta is non-finite exactly when u = d. Otherwise the call delta lies in [0, 1] and the put delta in [-1, 0]. Greeks.AtTheMoneyDelta sharpens the call bound to (0, 1) when S = K. |
| Greeks.AtTheMoneyDelta | include/binomial_pricer.h:124-131 | At the money (S = K), on a lattice with u ≠ d, the call delta is finite and lies strictly between 0 and 1. |
| Greeks.SecondDifference | include/binomial_pricer.h:144-154 | The gamma formula over given spots is non-finite when S_ud = S_uu. On ordered spots it is the difference of the two slopes over S_up - S_down, and it is non-negative. |
| Greeks.Gamma | include/binomial_pricer.h:142-171 | Gamma is non-finite exactly when u = d. Otherwise it is non-negative for calls and puts. |
| Greeks.FirstDifferenceParity | include/binomial_pricer.h:128-139 | Over any two ordered spots, the call and put delta formulas are finite together and differ by exactly 1. |
| Greeks.DeltaParity | include/binomial_pricer.h:124-141 | Call and put deltas are finite together, and the call delta exceeds the put delta by exactly 1. |
| Greeks.SecondDifferenceParity | include/binomial_pricer.h:147-169 | Over ordered spots, or when S_ud = S_uu, the call and put gamma formulas give the same outcome. |
| Greeks.GammaParity | include/binomial_pricer.h:142-171 | Call and put gammas are equal, including in the non-finite case. |
| SourcePricer.PriceEuropean | src/binomial_pricer.cpp:48-84 | priceEuropeanCall / priceEuropeanPut return the lattice root value, which is never negative. |
| SourcePricer.PriceAmerican | src/binomial_pricer.cpp:86-94 | priceAmericanCall / priceAmericanPut return 0.0 for every pricer. |
| SourcePricer.StubBelowEuropean | src/binomial_pricer.cpp:86-94 | For S = 2, K = 1, T = 0, N = 1, the construction succeeds and the European call and the lattice American call are both worth 1. The 0.0 stub is therefore below the European price. |

## Left out

- IEEE rounding, NaN propagation and the actual values of exp and sqrt. Reals are
  exact, and exp and sqrt are constrained only by the facts listed above.
- The `std::cout` diagnostic at the end of both constructors
  (include/binomial_pricer.h:44, src/binomial_pricer.cpp:46). It is output only.
- N is a C++ `int`, so `N + 1` and the loop counters could overflow at 2^31 - 1.
  The model takes N unbounded.
- include/monte_carlo_pricer.h. It is a random sampling loop over `std::mt19937`
  and a normal distribution, with nothing exact to state.
- src/main.cpp. It is console formatting around a templated variant of the class.
  That template's option-type header is not part of this model.
- The known-value tests (9.71 at N = 1000) and convergence to Black–Scholes. These
  are floating-point numerics, not lattice identities.
- Lattice.EuropeanParity: proved only when `|u - d| >= 1e-12` and
  `d <= exp(r dt) <= u`, or when T = 0. Two cases fall outside. When the clamp
  moves `p`, parity fails on the lattice. When `|u - d| < 1e-12` the fallback
  `p = 0.5` applies; this includes every input with `sigma = 0` and `T > 0`, where
  `u = d = 1` and parity fails (EarlyExercise.FrozenLatticeExercise).
  It is also proved in the discrete form S - K D^N, not the continuous form
  S - K exp(-rT) with a tolerance.
- EarlyExercise.NoEarlyExercise: proved under the same condition as parity,
  with the added ExpReciprocal assumption. When the clamp moves `p`, or the
  fallback `p = 0.5` applies, the discounted expected growth per step is no
  longer 1. The comparison of the European call with its exercise payoff then
  fails. With `sigma = 0` and `T > 0` early exercise does happen
  (EarlyExercise.FrozenLatticeExercise).

## Findings

| source | as written | input that shows it | evidently intended | confidence | as-written member | corrected member |
|---|---|---|---|---|---|---|
| src/binomial_pricer.cpp:86-94 | priceAmericanCall and priceAmericanPut return 0.0 | S = 2, K = 1, r = 0, T = 0, N = 1, sigma = 0: the European call is 1, the stub returns 0 | the American backward induction with the early-exercise floor, which is never below the European price | high (not executed) | SourcePricer.PriceAmerican, SourcePricer.StubBelowEuropean | Induction.Price, Lattice.AmericanDominatesEuropean |

=== FILE: early_exercise.dfy ===
/**
 Early exercise of a call on a lattice whose probability is the unclamped
 risk-neutral one and whose rate is non-negative: the European call is never
 worth less than its exercise payoff, so the American induction never takes
 the exercise branch and both prices coincide.
 */
module EarlyExercise {
  import opened RealMath
  import opened Parameters
  import opened Lattice

  /** With unit discounted growth and a discount of at most one, every
      European call node is worth at least its exercise payoff: it exceeds the
      forward value S_ij - K D^n, which is at least S_ij - K, and it is never
      negative. */
  lemma EuropeanCallAboveExercise(pr: Pricer, i: nat, j: nat)
    requires Shaped(pr) && ForwardGrowth(pr) == 1.0 && Discount(pr) <= 1.0 && j <= i <= pr.N
    ensures NodeValue(pr, Call, European, i, j) >= Payoff(Call, pr.K, Spot(pr, i, j))
  {
    CallAboveForward(pr, i, j);
    ForwardAboveIntrinsic(pr, pr.N - i, Spot(pr, i, j));
    NodeNonNegative(pr, Call, European, i, j);
  }

  /** A call is worth at least the forward contract, because the matching put is never negative. */
  lemma CallAboveForward(pr: Pricer, i: nat, j: nat)
    requires Shaped(pr) && j <= i <= pr.N
    ensures NodeValue(pr, Call, European, i, j) >= ForwardValue(pr, pr.N - i, Spot(pr, i, j))
  {
    EuropeanParityNode(pr, i, j);
    NodeNonNegative(pr, Put, European, i, j);
  }

  /** With unit growth and a discount in (0, 1] the forward contract is worth at least x - K. */
  lemma ForwardAboveIntrinsic(pr: Pricer, n: nat, x: real)
    requires pr.K > 0.0 && ForwardGrowth(pr) == 1.0 && 0.0 <= Discount(pr) <= 1.0
    ensures ForwardValue(pr, n, x) >= x - pr.K
  {
    ForwardUnitGrowth(pr, n, x);
    PowUnitInterval(Discount(pr), n);
    MulLeft(pr.K, Pow(Discount(pr), n), 1.0);
  }

  /** Under the same conditions the American call equals the European call at every node. */
  lemma {:induction false} AmericanCallNode(pr: Pricer, i: nat, j: nat)
    requires Shaped(pr) && ForwardGrowth(pr) == 1.0 && Discount(pr) <= 1.0 && j <= i <= pr.N
    ensures NodeValue(pr, Call, American, i, j) == NodeValue(pr, Call, European, i, j)
    decreases pr.N - i
  {
    if i < pr.N {
      AmericanCallNode(pr, i + 1, j + 1);
      AmericanCallNode(pr, i + 1, j);
      EuropeanCallAboveExercise(pr, i, j);
    }
  }

  /** Early exercise of a call is never optimal when r >= 0 and p is the
      unclamped risk-neutral probability (or the maturity is zero): the
      American and European call prices coincide. */
  lemma NoEarlyExercise(pr: Pricer)
    requires Valid(pr) && ExpReciprocal(pr.math) && pr.r >= 0.0
    requires pr.T == 0.0
             || (Abs(pr.u - pr.d) >= Epsilon && pr.d <= Growth(pr.math, pr.r, pr.dt) <= pr.u)
    ensures NodeValue(pr, Call, American, 0, 0) == NodeValue(pr, Call, European, 0, 0)
  {
    UnitForwardGrowth(pr);
    DiscountAtMostOne(pr);
    ValidShape(pr);
    AmericanCallNode(pr, 0, 0);
  }

  /** Why NoEarlyExercise needs its bracket condition: with sigma = 0 and
      T > 0 the factors are u = d = 1, the probability falls back to one half,
      and the spot never grows at the riskless rate. For S = 2, K = 1, r = 1,
      T = 1 and one step, the European call is worth only the discount
      exp(-1), the American call exercises at once for 1, and Call - Put
      misses S - K D by 2 - 2 exp(-1). */
  lemma FrozenLatticeExercise(m: Transcendentals)
    requires Sound(m) && m.exp(-1.0) < 1.0
    ensures var res := Construct(2.0, 1.0, 1.0, 1.0, 1, 0.0, m);
            && res.Ok?
            && res.value.u == res.value.d == 1.0 && res.value.p == 0.5
            && Discount(res.value) == m.exp(-1.0)
            && NodeValue(res.value, Call, European, 0, 0) == m.exp(-1.0)
            && NodeValue(res.value, Call, American, 0, 0) == 1.0
            && NodeValue(res.value, Call, European, 0, 0) - NodeValue(res.value, Put, European, 0, 0)
               != res.value.S - res.value.K * Pow(Discount(res.value), res.value.N)
  {
  }
}

=== FILE: greeks.dfy ===
/**
 getDeltaCall/getDeltaPut and getGammaCall/getGammaPut of the header
 implementation: closed-form finite differences of the payoff over the
 one-step nodes (S u, S d) and the two-step nodes (S u u, S u d, S d d).
 The source divides unconditionally; a zero divisor yields a NaN or an
 infinity in IEEE arithmetic, modelled here as NonFinite.
 */
module Greeks {
  import opened RealMath
  import opened Parameters
  import opened Lattice

  datatype Estimate = Finite(value: real) | NonFinite

  /** IEEE division num / den, with the non-finite outcome of a zero divisor made explicit. */
  function Quotient(num: real, den: real): (q: Estimate)
    ensures q.NonFinite? <==> den == 0.0
    ensures q.Finite? ==> q.value * den == num
  {
    if den == 0.0 then NonFinite else Finite(num / den)
  }

  /** The slope of the payoff between spots a < b. */
  function Slope(kind: OptionKind, K: real, a: real, b: real): (s: real)
    requires a < b
    ensures kind == Call ==> 0.0 <= s <= 1.0
    ensures kind == Put ==> -1.0 <= s <= 0.0
  {
    SlopeBounds(kind, K, a, b);
    (Payoff(kind, K, b) - Payoff(kind, K, a)) / (b - a)
  }

  lemma SlopeBounds(kind: OptionKind, K: real, a: real, b: real)
    requires a < b
    ensures var s := (Payoff(kind, K, b) - Payoff(kind, K, a)) / (b - a);
            (kind == Call ==> 0.0 <= s <= 1.0) && (kind == Put ==> -1.0 <= s <= 0.0)
  {
    var rise := Payoff(kind, K, b) - Payoff(kind, K, a);
    match kind
    case Call =>
      UnitQuotient(rise, b - a);
    case Put =>
      UnitQuotient(-rise, b - a);
      DivCancel(rise, b - a);
      DivUnique(-rise, b - a, -(rise / (b - a)));
  }

  /** The put payoff is the call payoff minus the forward payoff st - K, so
      every put slope is the matching call slope minus one. */
  lemma SlopeParity(K: real, a: real, b: real)
    requires a < b
    ensures Slope(Put, K, a, b) == Slope(Call, K, a, b) - 1.0
  {
    var w := b - a;
    var c := Payoff(Call, K, b) - Payoff(Call, K, a);
    assert Payoff(Put, K, b) - Payoff(Put, K, a) == c - w;
    DivCancel(c, w);
    DivUnique(c - w, w, c / w - 1.0);
  }

  /** Both payoffs are convex: over a < b < c the left slope does not exceed the right one. */
  lemma SlopeConvex(kind: OptionKind, K: real, a: real, b: real, c: real)
    requires a < b < c
    ensures Slope(kind, K, a, b) <= Slope(kind, K, b, c)
  {
    if kind == Put {
      SlopeParity(K, a, b);
      SlopeParity(K, b, c);
    }
    var left, right := Slope(Call, K, a, b), Slope(Call, K, b, c);
    if K <= a {
      DivUnique(b - a, b - a, 1.0);
      DivUnique(c - b, c - b, 1.0);
    } else if K < b {
      DivUnique(c - b, c - b, 1.0);
    } else {
      DivUnique(0.0, b - a, 0.0);
    }
  }

  /** The spots of the one-step nodes (S u, S d) and of the two-step nodes
      (S u u, S u d, S d d) that the Greeks read. */
  function UpSpot(pr: Pricer): real { pr.S * pr.u }
  function DownSpot(pr: Pricer): real { pr.S * pr.d }
  function UpUpSpot(pr: Pricer): real { pr.S * pr.u * pr.u }
  function UpDownSpot(pr: Pricer): real { pr.S * pr.u * pr.d }
  function DownDownSpot(pr: Pricer): real { pr.S * pr.d * pr.d }

  /** In a recombining lattice the middle two-step node sits at S, and the
      node spots are strictly ordered exactly when the factors differ. */
  lemma NodeSpots(pr: Pricer)
    requires Recombining(pr)
    ensures UpDownSpot(pr) == pr.S
    ensures pr.u == pr.d <==> pr.u == 1.0
    ensures pr.u == pr.d ==> DownSpot(pr) == UpSpot(pr) && UpDownSpot(pr) == UpUpSpot(pr)
    ensures pr.u != pr.d ==> DownSpot(pr) < UpSpot(pr)
    ensures pr.u != pr.d ==> DownDownSpot(pr) < UpDownSpot(pr) < UpUpSpot(pr)
  {
    SpotOrder(pr.S, pr.u, pr.d);
  }

  lemma SpotOrder(S: real, u: real, d: real)
    requires S > 0.0 && u >= 1.0 && u * d == 1.0
    ensures S * u * d == S
    ensures u == d <==> u == 1.0
    ensures u != d ==> S * d < S * u
    ensures u != d ==> S * d * d < S * u * d < S * u * u
  {
    assert S * u * d == S * (u * d);
    if u == d {
      assert u * u == 1.0;
    }
    if u != d {
      assert u > 1.0;
      assert d < 1.0 by {
        if d >= 1.0 { MulLeft(u, 1.0, d); }
      }
      MulLeft(S, d, u);
      MulLeft(S * d, d, u);
      MulLeft(S * u, d, u);
      assert S * d * u == S * u * d;
    }
  }

  /** Delta from the two first-step nodes: (V_up - V_down) / (S_up - S_down). */
  function Delta(pr: Pricer, kind: OptionKind): (r: Estimate)
    requires Recombining(pr)
    ensures r.NonFinite? <==> pr.u == pr.d
    ensures r.Finite? && kind == Call ==> 0.0 <= r.value <= 1.0
    ensures r.Finite? && kind == Put ==> -1.0 <= r.value <= 0.0
  {
    NodeSpots(pr);
    FirstDifference(kind, pr.K, DownSpot(pr), UpSpot(pr))
  }

  /** At the money (S = K) on a lattice that moves, the call delta lies
      strictly between 0 and 1: the up node is in the money, the down node is
      not, and S u - K falls short of S u - S d by S (1 - d) > 0. */
  lemma AtTheMoneyDelta(pr: Pricer)
    requires Recombining(pr) && pr.S == pr.K && pr.u != pr.d
    ensures Delta(pr, Call).Finite?
    ensures 0.0 < Delta(pr, Call).value < 1.0
  {
    NodeSpots(pr);
    var sUp, sDown := UpSpot(pr), DownSpot(pr);
    assert pr.u > 1.0;
    MulLeft(pr.S, 1.0, pr.u);
    assert pr.d < 1.0 by {
      if pr.d >= 1.0 { MulLeft(pr.u, 1.0, pr.d); }
    }
    MulLeft(pr.S, pr.d, 1.0);
    assert Payoff(Call, pr.K, sUp) == sUp - pr.K;
    assert Payoff(Call, pr.K, sDown) == 0.0;
    StrictUnitQuotient(sUp - pr.K, sUp - sDown);
  }

  /** The delta formula over given node spots, as the source writes it: the
      payoff slope between them, or a non-finite value when they coincide.
      The slope is the same whichever spot is the larger one. */
  function FirstDifference(kind: OptionKind, K: real, sDown: real, sUp: real): (r: Estimate)
    ensures r.NonFinite? <==> sDown == sUp
    ensures r.Finite? && kind == Call ==> 0.0 <= r.value <= 1.0
    ensures r.Finite? && kind == Put ==> -1.0 <= r.value <= 0.0
  {
    FirstDifferenceBounds(kind, K, sDown, sUp);
    Quotient(Payoff(kind, K, sUp) - Payoff(kind, K, sDown), sUp - sDown)
  }

  /** The payoff difference quotient over two distinct spots, taken in either
      order, lies in the slope range of its kind. */
  lemma FirstDifferenceBounds(kind: OptionKind, K: real, sDown: real, sUp: real)
    ensures sDown != sUp ==>
              var q := (Payoff(kind, K, sUp) - Payoff(kind, K, sDown)) / (sUp - sDown);
              (kind == Call ==> 0.0 <= q <= 1.0) && (kind == Put ==> -1.0 <= q <= 0.0)
  {
    if sDown < sUp {
      SlopeBounds(kind, K, sDown, sUp);
    } else if sUp < sDown {
      SlopeBounds(kind, K, sUp, sDown);
      DivNegate(Payoff(kind, K, sDown) - Payoff(kind, K, sUp), sDown - sUp);
    }
  }

  /** Gamma from the three second-step nodes: the change of the two
      second-step deltas divided by S_up - S_down. */
  function Gamma(pr: Pricer, kind: OptionKind): (r: Estimate)
    requires Recombining(pr)
    ensures r.NonFinite? <==> pr.u == pr.d
    ensures r.Finite? ==> r.value >= 0.0
  {
    NodeSpots(pr);
    SecondDifference(kind, pr.K, DownDownSpot(pr), UpDownSpot(pr), UpUpSpot(pr), DownSpot(pr), UpSpot(pr))
  }

  /** The gamma formula over given node spots, as the source writes it. */
  function SecondDifference(kind: OptionKind, K: real, sDD: real, sUD: real, sUU: real,
                            sDown: real, sUp: real): (r: Estimate)
    ensures sUD == sUU ==> r.NonFinite?
    ensures sDD < sUD < sUU && sDown < sUp ==>
              && r.Finite?
              && r.value == (Slope(kind, K, sUD, sUU) - Slope(kind, K, sDD, sUD)) / (sUp - sDown)
              && r.value >= 0.0
  {
    var vUU := Payoff(kind, K, sUU);
    var vUD := Payoff(kind, K, sUD);
    var vDD := Payoff(kind, K, sDD);
    var deltaUp := Quotient(vUU - vUD, sUU - sUD);
    var deltaDown := Quotient(vUD - vDD, sUD - sDD);
    if deltaUp.NonFinite? || deltaDown.NonFinite? then
      NonFinite
    else
      var g := Quotient(deltaUp.value - deltaDown.value, sUp - sDown);
      assert sDD < sUD < sUU && sDown < sUp ==> g.Finite? && g.value >= 0.0 by {
        if sDD < sUD < sUU && sDown < sUp {
          SlopeConvex(kind, K, sDD, sUD, sUU);
          DivideMonotone(0.0, deltaUp.value - deltaDown.value, sUp - sDown);
          DivUnique(0.0, sUp - sDown, 0.0);
        }
      }
      g
  }

  lemma DivideMonotone(x: real, y: real, den: real)
    requires x <= y && den > 0.0
    ensures x / den <= y / den
  {
    assert y / den - x / den == (y - x) / den;
    UnitQuotient(0.0, den);
    assert (y - x) / den * den == y - x;
  }

  /** Put-call parity of the first-step delta: the call delta exceeds the put delta by one. */
  lemma DeltaParity(pr: Pricer)
    requires Recombining(pr)
    ensures Delta(pr, Call).Finite? <==> Delta(pr, Put).Finite?
    ensures Delta(pr, Call).Finite? ==> Delta(pr, Call).value - Delta(pr, Put).value == 1.0
  {
    NodeSpots(pr);
    FirstDifferenceParity(pr.K, DownSpot(pr), UpSpot(pr));
  }

  /** DeltaParity over arbitrary ordered spots. */
  lemma FirstDifferenceParity(K: real, sDown: real, sUp: real)
    requires sDown <= sUp
    ensures FirstDifference(Call, K, sDown, sUp).Finite? <==> FirstDifference(Put, K, sDown, sUp).Finite?
    ensures FirstDifference(Call, K, sDown, sUp).Finite? ==>
              FirstDifference(Call, K, sDown, sUp).value - FirstDifference(Put, K, sDown, sUp).value == 1.0
  {
    if sDown < sUp {
      SlopeParity(K, sDown, sUp);
    }
  }

  /** The call and put gammas coincide: the payoffs differ by a linear function of the spot. */
  lemma GammaParity(pr: Pricer)
    requires Recombining(pr)
    ensures Gamma(pr, Call) == Gamma(pr, Put)
  {
    NodeSpots(pr);
    SecondDifferenceParity(pr.K, DownDownSpot(pr), UpDownSpot(pr), UpUpSpot(pr), DownSpot(pr), UpSpot(pr));
  }

  /** GammaParity over arbitrary spots ordered as the two-step nodes are. */
  lemma SecondDifferenceParity(K: real, sDD: real, sUD: real, sUU: real, sDown: real, sUp: real)
    requires (sDD < sUD < sUU && sDown < sUp) || sUD == sUU
    ensures SecondDifference(Call, K, sDD, sUD, sUU, sDown, sUp)
            == SecondDifference(Put, K, sDD, sUD, sUU, sDown, sUp)
  {
    if sUD != sUU {
      SlopeParity(K, sUD, sUU);
      SlopeParity(K, sDD, sUD);
      var upCall, downCall := Slope(Call, K, sUD, sUU), Slope(Call, K, sDD, sUD);
      assert Slope(Put, K, sUD, sUU) - Slope(Put, K, sDD, sUD) == upCall - downCall;
    }
  }
}

=== FILE: induction.dfy ===
/**
 The pricing loops of BinomialPricer: terminal payoffs written into an array
 of N + 1 entries, then collapsed in place one level at a time. The option
 kind and exercise style select the payoff and the node update, so this one
 method stands for priceEuropeanCall, priceEuropeanPut, priceAmericanCall and
 priceAmericanPut of the header implementation.
 */
module Induction {
  import opened RealMath
  import opened Parameters
  import opened Lattice

  /** Backward induction over the lattice; the result is the root value of
      the recursive lattice definition. */
  method Price(pr: Pricer, kind: OptionKind, style: ExerciseStyle) returns (v: real)
    ensures v == NodeValue(pr, kind, style, 0, 0)
  {
    var values := new real[pr.N + 1];
    var j := 0;
    while j <= pr.N
      invariant 0 <= j <= pr.N + 1
      invariant forall k :: 0 <= k < j ==> values[k] == NodeValue(pr, kind, style, pr.N, k)
    {
      values[j] := Payoff(kind, pr.K, Spot(pr, pr.N, j));
      j := j + 1;
    }
    var discount := Discount(pr);
    var i := pr.N - 1;
    // values[0..i + 1] holds level i + 1 of the lattice
    while i >= 0
      invariant -1 <= i < pr.N
      invariant forall k :: 0 <= k <= i + 1 ==> values[k] == NodeValue(pr, kind, style, i + 1, k)
    {
      CollapseLevel(values, pr, kind, style, discount, i);
      i := i - 1;
    }
    v := values[0];
  }

  /** One pass of the inner loop: overwrites values[0..i + 1] with level i,
      reading level i + 1 from values[0..i + 2]; entry i + 1 and everything
      after it are left as they were. */
  method CollapseLevel(values: array<real>, pr: Pricer, kind: OptionKind, style: ExerciseStyle,
                       discount: real, i: nat)
    requires i < pr.N && i + 1 < values.Length && discount == Discount(pr)
    requires forall k :: 0 <= k <= i + 1 ==> values[k] == NodeValue(pr, kind, style, i + 1, k)
    modifies values
    ensures forall k :: 0 <= k <= i ==> values[k] == NodeValue(pr, kind, style, i, k)
    ensures values[i + 1] == NodeValue(pr, kind, style, i + 1, i + 1)
    ensures forall k :: i + 1 < k < values.Length ==> values[k] == old(values[k])
  {
    var j := 0;
    // values[0..j] already holds level i, values[j..i + 2] still holds level i + 1
    while j <= i
      invariant 0 <= j <= i + 1
      invariant forall k :: 0 <= k < j ==> values[k] == NodeValue(pr, kind, style, i, k)
      invariant forall k :: j <= k <= i + 1 ==> values[k] == NodeValue(pr, kind, style, i + 1, k)
      invariant forall k :: i + 1 < k < values.Length ==> values[k] == old(values[k])
    {
      NodeStep(pr, kind, style, i, j);
      values[j] := Update(pr, kind, style, discount, i, j, values[j + 1], values[j]);
      j := j + 1;
    }
  }

  /** The node update as the loops write it: the European loops multiply the
      expectation by the discount, the American loops take the larger of the
      discounted expectation and the exercise payoff at the node's spot. */
  function Update(pr: Pricer, kind: OptionKind, style: ExerciseStyle, discount: real,
                  i: nat, j: nat, up: real, down: real): real
    requires j <= i
  {
    match style
    case European =>
      Expectation(pr.p, up, down) * discount
    case American =>
      var holdValue := discount * Expectation(pr.p, up, down);
      var exerciseValue := Payoff(kind, pr.K, Spot(pr, i, j));
      Max(holdValue, exerciseValue)
  }

  /** One update applied to the two successors yields the node's lattice value. */
  lemma NodeStep(pr: Pricer, kind: OptionKind, style: ExerciseStyle, i: nat, j: nat)
    requires j <= i < pr.N
    ensures NodeValue(pr, kind, style, i, j)
            == Update(pr, kind, style, Discount(pr), i, j,
                      NodeValue(pr, kind, style, i + 1, j + 1), NodeValue(pr, kind, style, i + 1, j))
  {
    match style
    case European => EuropeanStep(pr, kind, i, j);
    case American => AmericanStep(pr, kind, i, j);
  }

  lemma EuropeanStep(pr: Pricer, kind: OptionKind, i: nat, j: nat)
    requires j <= i < pr.N
    ensures NodeValue(pr, kind, European, i, j)
            == Update(pr, kind, European, Discount(pr), i, j,
                      NodeValue(pr, kind, European, i + 1, j + 1), NodeValue(pr, kind, European, i + 1, j))
  {
    var e := Expectation(pr.p, NodeValue(pr, kind, European, i + 1, j + 1), NodeValue(pr, kind, European, i + 1, j));
    assert Discount(pr) * e == e * Discount(pr);
  }

  lemma AmericanStep(pr: Pricer, kind: OptionKind, i: nat, j: nat)
    requires j <= i < pr.N
    ensures NodeValue(pr, kind, American, i, j)
            == Update(pr, kind, American, Discount(pr), i, j,
                      NodeValue(pr, kind, American, i + 1, j + 1), NodeValue(pr, kind, American, i + 1, j))
  {
    AmericanNode(pr, kind, i, j);
    AmericanUpdate(pr, kind, Discount(pr), i, j,
                   NodeValue(pr, kind, American, i + 1, j + 1), NodeValue(pr, kind, American, i + 1, j));
  }

  /** The American node value before maturity, unfolded once. */
  lemma AmericanNode(pr: Pricer, kind: OptionKind, i: nat, j: nat)
    requires j <= i < pr.N
    ensures NodeValue(pr, kind, American, i, j)
            == Max(Hold(pr.p, Discount(pr), NodeValue(pr, kind, American, i + 1, j + 1),
                        NodeValue(pr, kind, American, i + 1, j)),
                   Payoff(kind, pr.K, Spot(pr, i, j)))
  {
  }

  /** The American update is the larger of the hold value and the exercise payoff. */
  lemma AmericanUpdate(pr: Pricer, kind: OptionKind, discount: real, i: nat, j: nat, up: real, down: real)
    requires j <= i
    ensures Update(pr, kind, American, discount, i, j, up, down)
            == Max(Hold(pr.p, discount, up, down), Payoff(kind, pr.K, Spot(pr, i, j)))
  {
  }
}

=== FILE: lattice.dfy ===
/**
 The recombining binomial lattice as a pure recursive definition: the spot
 at node (i, j) after i steps of which j are up moves, the option payoffs, and
 the value of every node by backward induction. Option kind and exercise style
 are tags, so one definition covers the four pricing loops.
 */
module Lattice {
  import opened RealMath
  import opened Parameters

  datatype OptionKind = Call | Put
  datatype ExerciseStyle = European | American

  /** The payoff of exercising at spot st: max(st - K, 0) or max(K - st, 0). */
  function Payoff(kind: OptionKind, K: real, st: real): (v: real)
    ensures v >= 0.0
    ensures kind == Call ==> v >= st - K && (v == 0.0 || v == st - K)
    ensures kind == Put ==> v >= K - st && (v == 0.0 || v == K - st)
  {
    match kind
    case Call => Max(st - K, 0.0)
    case Put => Max(K - st, 0.0)
  }

  /** The spot S * u^j * d^(i - j) at the node reached by j up and i - j down moves. */
  function Spot(pr: Pricer, i: nat, j: nat): real
    requires j <= i
  {
    pr.S * Pow(pr.u, j) * Pow(pr.d, i - j)
  }

  /** The expectation of the two successor values under the up probability p. */
  function Expectation(p: real, up: real, down: real): real
  {
    p * up + (1.0 - p) * down
  }

  /** The discounted expectation of the two successor values. */
  function Hold(p: real, discount: real, up: real, down: real): real
  {
    discount * Expectation(p, up, down)
  }

  /** The discounted expected growth of the spot over one step. */
  function ForwardGrowth(pr: Pricer): real
  {
    Hold(pr.p, Discount(pr), pr.u, pr.d)
  }

  /** The value at node (i, j): the payoff at maturity, otherwise the hold
      value, floored by the exercise payoff for American exercise. */
  function NodeValue(pr: Pricer, kind: OptionKind, style: ExerciseStyle, i: nat, j: nat): real
    requires j <= i <= pr.N
    decreases pr.N - i
  {
    if i == pr.N then
      Payoff(kind, pr.K, Spot(pr, i, j))
    else
      var hold := Hold(pr.p, Discount(pr),
                       NodeValue(pr, kind, style, i + 1, j + 1),
                       NodeValue(pr, kind, style, i + 1, j));
      match style
      case European => hold
      case American => Max(hold, Payoff(kind, pr.K, Spot(pr, i, j)))
  }

  /** Call values rise and put values fall as the spot rises. */
  predicate Ordered(kind: OptionKind, lo: real, hi: real)
  {
    match kind
    case Call => lo <= hi
    case Put => lo >= hi
  }

  /** The facts about a pricer that the order proofs below rely on: a
      positive spot and strike, 0 < d <= u, a probability p and a positive discount.
      Every constructed pricer has them (ValidShape). */
  predicate Shaped(pr: Pricer)
  {
    pr.S > 0.0 && pr.K > 0.0 && 0.0 < pr.d <= pr.u && 0.0 <= pr.p <= 1.0 && Discount(pr) > 0.0
  }

  lemma ValidShape(pr: Pricer)
    requires Valid(pr)
    ensures Shaped(pr)
  {
    ValidFacts(pr);
  }

  /** One up move multiplies the spot by u, one down move by d. */
  lemma SpotSteps(pr: Pricer, i: nat, j: nat)
    requires j <= i
    ensures Spot(pr, i + 1, j + 1) == pr.u * Spot(pr, i, j)
    ensures Spot(pr, i + 1, j) == pr.d * Spot(pr, i, j)
  {
    assert Pow(pr.u, j + 1) == pr.u * Pow(pr.u, j);
    assert Pow(pr.d, i + 1 - j) == pr.d * Pow(pr.d, i - j);
  }

  /** SpotSteps in terms of Move. */
  lemma SpotMoves(pr: Pricer, i: nat, j: nat)
    requires j <= i
    ensures Spot(pr, i + 1, j + 1) == Move(pr.u, Spot(pr, i, j))
    ensures Spot(pr, i + 1, j) == Move(pr.d, Spot(pr, i, j))
  {
    SpotSteps(pr, i, j);
  }

  /** The root of the lattice sits at the spot S. */
  lemma RootSpot(pr: Pricer)
    ensures Spot(pr, 0, 0) == pr.S
  {
  }

  /** The lattice recombines: an up move followed by a down move returns to the same spot. */
  lemma Recombines(pr: Pricer, i: nat, j: nat)
    requires Recombining(pr) && j <= i
    ensures Spot(pr, i + 2, j + 1) == Spot(pr, i, j)
  {
    SpotSteps(pr, i, j);
    SpotSteps(pr, i + 1, j);
    UpThenDown(pr.u, pr.d, Spot(pr, i, j), Spot(pr, i + 1, j));
  }

  lemma UpThenDown(u: real, d: real, x: real, y: real)
    requires u * d == 1.0 && y == d * x
    ensures u * y == x
  {
    assert u * (d * x) == (u * d) * x;
  }

  /** Every node spot is positive. */
  lemma SpotPositive(pr: Pricer, i: nat, j: nat)
    requires Shaped(pr) && j <= i
    ensures Spot(pr, i, j) > 0.0
  {
    var a := Pow(pr.u, j);
    var b := Pow(pr.d, i - j);
    assert pr.S * a > 0.0;
  }

  /** Within one level, more up moves mean a higher spot. */
  lemma SpotMonotone(pr: Pricer, i: nat, j: nat)
    requires Shaped(pr) && j < i
    ensures Spot(pr, i, j) <= Spot(pr, i, j + 1)
  {
    SpotPositive(pr, i - 1, j);
    UpAboveDown(pr, i - 1, j);
  }

  /** From a node with a positive spot, the up successor lies above the down successor. */
  lemma UpAboveDown(pr: Pricer, i: nat, j: nat)
    requires j <= i && pr.d <= pr.u && Spot(pr, i, j) > 0.0
    ensures Spot(pr, i + 1, j) <= Spot(pr, i + 1, j + 1)
  {
    SpotSteps(pr, i, j);
    MulRight(Spot(pr, i, j), pr.d, pr.u);
  }

  /** Payoffs are ordered by spot: calls non-decreasing, puts non-increasing. */
  lemma PayoffOrdered(kind: OptionKind, K: real, lo: real, hi: real)
    requires lo <= hi
    ensures Ordered(kind, Payoff(kind, K, lo), Payoff(kind, K, hi))
  {
  }

  /** The hold value is monotone in both successor values when p is a
      probability and the discount is non-negative. */
  lemma HoldMonotone(p: real, discount: real, up: real, down: real, up': real, down': real)
    requires 0.0 <= p <= 1.0 && discount >= 0.0
    requires up <= up' && down <= down'
    ensures Hold(p, discount, up, down) <= Hold(p, discount, up', down')
  {
    ExpectationMonotone(p, up, down, up', down');
    MulLeft(discount, Expectation(p, up, down), Expectation(p, up', down'));
  }

  lemma ExpectationMonotone(p: real, up: real, down: real, up': real, down': real)
    requires 0.0 <= p <= 1.0
    requires up <= up' && down <= down'
    ensures Expectation(p, up, down) <= Expectation(p, up', down')
  {
    MulLeft(p, up, up');
    ComplementMul(p, down, down');
  }

  /** Every node value is non-negative, hence so is every price. */
  lemma {:induction false} NodeNonNegative(pr: Pricer, kind: OptionKind, style: ExerciseStyle, i: nat, j: nat)
    requires Shaped(pr) && j <= i <= pr.N
    ensures NodeValue(pr, kind, style, i, j) >= 0.0
    decreases pr.N - i
  {
    if i < pr.N {
      NodeNonNegative(pr, kind, style, i + 1, j + 1);
      NodeNonNegative(pr, kind, style, i + 1, j);
      HoldMonotone(pr.p, Discount(pr), 0.0, 0.0,
                   NodeValue(pr, kind, style, i + 1, j + 1), NodeValue(pr, kind, style, i + 1, j));
    }
  }

  /** An American node is worth at least its exercise payoff and, before
      maturity, at least its hold value. */
  lemma EarlyExerciseFloor(pr: Pricer, kind: OptionKind, i: nat, j: nat)
    requires j <= i <= pr.N
    ensures NodeValue(pr, kind, American, i, j) >= Payoff(kind, pr.K, Spot(pr, i, j))
    ensures i < pr.N ==>
              NodeValue(pr, kind, American, i, j)
              >= Hold(pr.p, Discount(pr), NodeValue(pr, kind, American, i + 1, j + 1),
                      NodeValue(pr, kind, American, i + 1, j))
  {
  }

  /** The right of early exercise is never worth less than nothing: the
      American value dominates the European value at every node. */
  lemma {:induction false} AmericanDominatesEuropean(pr: Pricer, kind: OptionKind, i: nat, j: nat)
    requires Shaped(pr) && j <= i <= pr.N
    ensures NodeValue(pr, kind, American, i, j) >= NodeValue(pr, kind, European, i, j)
    decreases pr.N - i
  {
    if i < pr.N {
      AmericanDominatesEuropean(pr, kind, i + 1, j + 1);
      AmericanDominatesEuropean(pr, kind, i + 1, j);
      HoldMonotone(pr.p, Discount(pr),
                   NodeValue(pr, kind, European, i + 1, j + 1), NodeValue(pr, kind, European, i + 1, j),
                   NodeValue(pr, kind, American, i + 1, j + 1), NodeValue(pr, kind, American, i + 1, j));
    }
  }

  /** Within one level node values are ordered by the number of up moves:
      non-decreasing for a call, non-increasing for a put. */
  lemma {:induction false} NodeMonotone(pr: Pricer, kind: OptionKind, style: ExerciseStyle, i: nat, j: nat)
    requires Shaped(pr) && j < i <= pr.N
    ensures Ordered(kind, NodeValue(pr, kind, style, i, j), NodeValue(pr, kind, style, i, j + 1))
    decreases pr.N - i
  {
    SpotMonotone(pr, i, j);
    PayoffOrdered(kind, pr.K, Spot(pr, i, j), Spot(pr, i, j + 1));
    if i < pr.N {
      NodeMonotone(pr, kind, style, i + 1, j);
      NodeMonotone(pr, kind, style, i + 1, j + 1);
      var a, b := NodeValue(pr, kind, style, i + 1, j + 1), NodeValue(pr, kind, style, i + 1, j);
      var a', b' := NodeValue(pr, kind, style, i + 1, j + 2), NodeValue(pr, kind, style, i + 1, j + 1);
      match kind
      case Call =>
        HoldMonotone(pr.p, Discount(pr), a, b, a', b');
      case Put =>
        HoldMonotone(pr.p, Discount(pr), a', b', a, b);
    }
  }

  /** At zero maturity the lattice collapses: every node sits at the spot S
      and is worth the immediate payoff, whatever the exercise style. */
  lemma {:induction false} ZeroMaturityNode(pr: Pricer, kind: OptionKind, style: ExerciseStyle, i: nat, j: nat)
    requires Valid(pr) && pr.T == 0.0 && j <= i <= pr.N
    ensures Spot(pr, i, j) == pr.S
    ensures NodeValue(pr, kind, style, i, j) == Payoff(kind, pr.K, pr.S)
    decreases pr.N - i
  {
    ValidFacts(pr);
    if i < pr.N {
      ZeroMaturityNode(pr, kind, style, i + 1, j + 1);
      ZeroMaturityNode(pr, kind, style, i + 1, j);
      var v := Payoff(kind, pr.K, pr.S);
      assert Hold(pr.p, Discount(pr), v, v) == v;
    }
  }

  /** Discounted expectation is linear: the difference of two hold values is
      the hold value of the differences. */
  lemma HoldLinear(p: real, discount: real, up: real, down: real, up': real, down': real)
    ensures Hold(p, discount, up, down) - Hold(p, discount, up', down')
            == Hold(p, discount, up - up', down - down')
  {
  }

  /** The lattice value of the forward contract paying S_N - K at maturity,
      n steps before maturity at a node whose spot is x. */
  function ForwardValue(pr: Pricer, n: nat, x: real): real
  {
    if n == 0 then
      x - pr.K
    else
      Hold(pr.p, Discount(pr), ForwardValue(pr, n - 1, Move(pr.u, x)), ForwardValue(pr, n - 1, Move(pr.d, x)))
  }

  /** The spot x after a move by the factor u or d. Kept as a function so that
      the recursive calls above take it as an argument rather than a product. */
  function Move(factor: real, x: real): real
  {
    factor * x
  }

  /** Put-call parity on the lattice: at every node the European call value
      minus the European put value is the value of the forward contract,
      since the two payoffs differ by S_N - K and backward induction is linear. */
  lemma {:induction false} EuropeanParityNode(pr: Pricer, i: nat, j: nat)
    requires j <= i <= pr.N
    ensures NodeValue(pr, Call, European, i, j) - NodeValue(pr, Put, European, i, j)
            == ForwardValue(pr, pr.N - i, Spot(pr, i, j))
    decreases pr.N - i
  {
    if i < pr.N {
      EuropeanParityNode(pr, i + 1, j + 1);
      EuropeanParityNode(pr, i + 1, j);
      SpotMoves(pr, i, j);
      HoldLinear(pr.p, Discount(pr),
                 NodeValue(pr, Call, European, i + 1, j + 1), NodeValue(pr, Call, European, i + 1, j),
                 NodeValue(pr, Put, European, i + 1, j + 1), NodeValue(pr, Put, European, i + 1, j));
    }
  }

  /** The forward contract in closed form: the spot grown by the discounted
      expected growth g over the remaining steps, less the strike discounted
      over them. */
  lemma {:induction false} ForwardClosedForm(pr: Pricer, n: nat, x: real)
    ensures ForwardValue(pr, n, x)
            == x * Pow(ForwardGrowth(pr), n) - pr.K * Pow(Discount(pr), n)
  {
    if n > 0 {
      ForwardClosedForm(pr, n - 1, Move(pr.u, x));
      ForwardClosedForm(pr, n - 1, Move(pr.d, x));
      ForwardInduct(pr, n, x);
    }
  }

  /** The inductive step of the closed form. */
  lemma ForwardInduct(pr: Pricer, n: nat, x: real)
    requires n > 0
    requires ForwardValue(pr, n - 1, Move(pr.u, x))
             == Move(pr.u, x) * Pow(ForwardGrowth(pr), n - 1) - pr.K * Pow(Discount(pr), n - 1)
    requires ForwardValue(pr, n - 1, Move(pr.d, x))
             == Move(pr.d, x) * Pow(ForwardGrowth(pr), n - 1) - pr.K * Pow(Discount(pr), n - 1)
    ensures ForwardValue(pr, n, x)
            == x * Pow(ForwardGrowth(pr), n) - pr.K * Pow(Discount(pr), n)
  {
    ForwardStep(pr, n, x, Pow(ForwardGrowth(pr), n - 1), Pow(Discount(pr), n - 1),
                Pow(ForwardGrowth(pr), n), Pow(Discount(pr), n));
  }

  /** One backward step applied to the forward values X_up g^n - K D^n and
      X_down g^n - K D^n, with g the discounted expected growth, gives
      X g^(n+1) - K D^(n+1). */
  lemma ForwardStep(pr: Pricer, n: nat, x: real, gn: real, dn: real, gn1: real, dn1: real)
    requires n > 0
    requires gn1 == ForwardGrowth(pr) * gn && dn1 == Discount(pr) * dn
    requires ForwardValue(pr, n - 1, Move(pr.u, x)) == Move(pr.u, x) * gn - pr.K * dn
    requires ForwardValue(pr, n - 1, Move(pr.d, x)) == Move(pr.d, x) * gn - pr.K * dn
    ensures ForwardValue(pr, n, x) == x * gn1 - pr.K * dn1
  {
    var up, down := ForwardValue(pr, n - 1, Move(pr.u, x)), ForwardValue(pr, n - 1, Move(pr.d, x));
    assert ForwardValue(pr, n, x) == Hold(pr.p, Discount(pr), up, down);
    HoldForward(pr.p, Discount(pr), pr.u, pr.d, x, gn, dn, pr.K);
  }

  /** The same step on plain numbers: the hold value of u x g - K e and
      d x g - K e is x (h g) - K (D e), where h is the hold value of u and d. */
  lemma HoldForward(p: real, discount: real, u: real, d: real, x: real, g: real, e: real, K: real)
    ensures Hold(p, discount, Move(u, x) * g - K * e, Move(d, x) * g - K * e)
            == x * (Hold(p, discount, u, d) * g) - K * (discount * e)
  {
    assert Expectation(p, Move(u, x) * g - K * e, Move(d, x) * g - K * e)
           == x * g * Expectation(p, u, d) - K * e;
  }

  /** When p is the unclamped risk-neutral probability (or the step has zero
      length) the discounted expected growth is one, and the root parity reads
      Call - Put = S - K D^N with D the one-step discount factor. */
  lemma EuropeanParity(pr: Pricer)
    requires Valid(pr) && ExpReciprocal(pr.math)
    requires pr.T == 0.0
             || (Abs(pr.u - pr.d) >= Epsilon && pr.d <= Growth(pr.math, pr.r, pr.dt) <= pr.u)
    ensures NodeValue(pr, Call, European, 0, 0) - NodeValue(pr, Put, European, 0, 0)
            == pr.S - pr.K * Pow(Discount(pr), pr.N)
  {
    UnitForwardGrowth(pr);
    RootParity(pr);
  }

  /** Under the same conditions one step of discounted expectation leaves the
      spot unchanged on average. */
  lemma UnitForwardGrowth(pr: Pricer)
    requires Valid(pr) && ExpReciprocal(pr.math)
    requires pr.T == 0.0
             || (Abs(pr.u - pr.d) >= Epsilon && pr.d <= Growth(pr.math, pr.r, pr.dt) <= pr.u)
    ensures ForwardGrowth(pr) == 1.0
  {
    if pr.T == 0.0 {
      ValidFacts(pr);
      UnitStepGrowth(pr);
    } else {
      Martingale(pr);
      RiskNeutralGrowth(pr);
    }
  }

  /** A step that neither moves the spot nor discounts has unit growth. */
  lemma UnitStepGrowth(pr: Pricer)
    requires pr.u == 1.0 && pr.d == 1.0 && Discount(pr) == 1.0
    ensures ForwardGrowth(pr) == 1.0
  {
    assert Expectation(pr.p, pr.u, pr.d) == 1.0;
  }

  /** A step whose expected growth is the riskless growth has unit discounted growth. */
  lemma RiskNeutralGrowth(pr: Pricer)
    requires ExpReciprocal(pr.math)
    requires pr.p * pr.u + (1.0 - pr.p) * pr.d == Growth(pr.math, pr.r, pr.dt)
    ensures ForwardGrowth(pr) == 1.0
  {
    DiscountCancelsGrowth(pr);
  }

  /** Root parity whenever the discounted expected growth is one. */
  lemma RootParity(pr: Pricer)
    requires ForwardGrowth(pr) == 1.0
    ensures NodeValue(pr, Call, European, 0, 0) - NodeValue(pr, Put, European, 0, 0)
            == pr.S - pr.K * Pow(Discount(pr), pr.N)
  {
    RootForward(pr);
    ForwardUnitGrowth(pr, pr.N, pr.S);
  }

  /** EuropeanParityNode at the root, whose spot is S. */
  lemma RootForward(pr: Pricer)
    ensures NodeValue(pr, Call, European, 0, 0) - NodeValue(pr, Put, European, 0, 0)
            == ForwardValue(pr, pr.N, pr.S)
  {
    RootSpot(pr);
    EuropeanParityNode(pr, 0, 0);
  }

  /** The closed form when the discounted expected growth is one: the spot
      less the discounted strike. */
  lemma ForwardUnitGrowth(pr: Pricer, n: nat, x: real)
    requires ForwardGrowth(pr) == 1.0
    ensures ForwardValue(pr, n, x) == x - pr.K * Pow(Discount(pr), n)
  {
    ForwardClosedForm(pr, n, x);
    assert x * Pow(ForwardGrowth(pr), n) == x;
  }
}

=== FILE: parameters.dfy ===
/**
 The constructor of BinomialPricer: input validation and the derivation of the
 lattice constants (step length, up and down factors, risk-neutral up
 probability). Both the header implementation and the .cpp implementation
 carry this constructor verbatim, so it is modelled once.
 */
module Parameters {
  import opened RealMath

  /** The three std::invalid_argument exceptions, in the order they are thrown. */
  datatype ParamError =
    | NonPositiveSteps            // "N must be greater than 0"
    | NonPositiveSpotOrStrike     // "S and K must be greater than 0"
    | NegativeVolatilityOrTime    // "sigma and T must be >= 0"

  datatype Validation = Accepted | Rejected(error: ParamError)

  datatype Result<T> = Ok(value: T) | Err(error: ParamError)

  /** The fields the constructor derives. */
  datatype LatticeConstants = LatticeConstants(dt: real, u: real, d: real, p: real)

  /** A constructed pricer: the stored inputs, the derived constants and the
      transcendental functions its computations call. */
  datatype Pricer = Pricer(
    S: real, K: real, r: real, T: real, N: nat, sigma: real,
    dt: real, u: real, d: real, p: real,
    math: Transcendentals)

  /** The up factor exp(sigma * sqrt(dt)). */
  function UpFactor(m: Transcendentals, sigma: real, dt: real): real
  {
    m.exp(Diffusion(m, sigma, dt))
  }

  /** The exponent sigma * sqrt(dt) of the up factor. The products that
      exp is applied to are kept behind functions like this one so that the
      solver compares them as terms. */
  function Diffusion(m: Transcendentals, sigma: real, dt: real): real
  {
    sigma * m.sqrt(dt)
  }

  /** The riskless one-step growth exp(r * dt). */
  function Growth(m: Transcendentals, r: real, dt: real): real
  {
    m.exp(RateTime(r, dt))
  }

  /** The exponent r * dt of the one-step growth and discount. */
  function RateTime(r: real, dt: real): real
  {
    r * dt
  }

  /** Below this magnitude the denominator u - d is treated as zero. */
  const Epsilon: real := 0.000000000001

  /** The inputs satisfy every check the constructor makes. */
  predicate Admissible(S: real, K: real, T: real, N: int, sigma: real)
  {
    N > 0 && S > 0.0 && K > 0.0 && sigma >= 0.0 && T >= 0.0
  }

  /** The three validation checks, tried in source order. */
  function Validate(S: real, K: real, T: real, N: int, sigma: real): (v: Validation)
    ensures v.Accepted? <==> Admissible(S, K, T, N, sigma)
    ensures v == Rejected(NonPositiveSteps) <==> N <= 0
    ensures v == Rejected(NonPositiveSpotOrStrike) <==> N > 0 && (S <= 0.0 || K <= 0.0)
    ensures v == Rejected(NegativeVolatilityOrTime) <==> (N > 0 && S > 0.0 && K > 0.0 && (sigma < 0.0 || T < 0.0))
  {
    if N <= 0 then Rejected(NonPositiveSteps)
    else if S <= 0.0 || K <= 0.0 then Rejected(NonPositiveSpotOrStrike)
    else if sigma < 0.0 || T < 0.0 then Rejected(NegativeVolatilityOrTime)
    else Accepted
  }

  /** The derivation of dt, u, d and p from validated inputs. */
  function Derive(T: real, N: nat, sigma: real, r: real, m: Transcendentals): (c: LatticeConstants)
    requires Sound(m) && N > 0 && T >= 0.0 && sigma >= 0.0
    ensures c.dt * (N as real) == T
    ensures c.dt == 0.0 <==> T == 0.0
    // the degenerate zero-length step
    ensures c.dt == 0.0 ==> c.u == 1.0 && c.d == 1.0 && c.p == 0.5
    ensures c.dt != 0.0 ==> c.u == UpFactor(m, sigma, c.dt)
    // the lattice recombines, and the up move is the larger one
    ensures c.u * c.d == 1.0
    ensures c.u >= 1.0 && 0.0 < c.d <= 1.0
    // p is a probability, and falls back to one half when u and d nearly coincide
    ensures 0.0 <= c.p <= 1.0
    ensures Abs(c.u - c.d) < Epsilon ==> c.p == 0.5
    // with d <= exp(r dt) <= u, p makes the expected one-step growth the riskless one
    ensures (Abs(c.u - c.d) >= Epsilon && c.d <= Growth(m, r, c.dt) <= c.u)
              ==> c.p * c.u + (1.0 - c.p) * c.d == Growth(m, r, c.dt)
    // outside that bracket the clamp pins p to an end point
    ensures Abs(c.u - c.d) >= Epsilon && Growth(m, r, c.dt) < c.d ==> c.p == 0.0
    ensures Abs(c.u - c.d) >= Epsilon && c.u < Growth(m, r, c.dt) ==> c.p == 1.0
  {
    StepLength(T, N);
    var dt := T / (N as real);
    if dt == 0.0 then
      LatticeConstants(dt, 1.0, 1.0, Clamp(0.5, 0.0, 1.0))
    else
      RiskyStep(dt, sigma, r, m)
  }

  /** dt = T / N splits the maturity into N equal steps, and is zero only when T is. */
  lemma StepLength(T: real, N: nat)
    requires N > 0 && T >= 0.0
    ensures T / (N as real) * (N as real) == T
    ensures T / (N as real) >= 0.0
    ensures T / (N as real) == 0.0 <==> T == 0.0
  {
    UnitQuotient(0.0, N as real);
    DivCancel(T, N as real);
  }

  /** The constants for a step of positive length dt. */
  function RiskyStep(dt: real, sigma: real, r: real, m: Transcendentals): (c: LatticeConstants)
    requires Sound(m) && dt > 0.0 && sigma >= 0.0
    ensures c.dt == dt
    ensures c.u == UpFactor(m, sigma, dt)
    ensures c.u * c.d == 1.0
    ensures c.u >= 1.0 && 0.0 < c.d <= 1.0
    ensures 0.0 <= c.p <= 1.0
    ensures Abs(c.u - c.d) < Epsilon ==> c.p == 0.5
    ensures (Abs(c.u - c.d) >= Epsilon && c.d <= Growth(m, r, dt) <= c.u)
              ==> c.p * c.u + (1.0 - c.p) * c.d == Growth(m, r, dt)
    ensures Abs(c.u - c.d) >= Epsilon && Growth(m, r, dt) < c.d ==> c.p == 0.0
    ensures Abs(c.u - c.d) >= Epsilon && c.u < Growth(m, r, dt) ==> c.p == 1.0
  {
    var u := UpFactor(m, sigma, dt);
    StepFactors(m, sigma, dt);
    var d := 1.0 / u;
    var p := if Abs(u - d) < Epsilon then 0.5 else RiskNeutral(Growth(m, r, dt), u, d);
    LatticeConstants(dt, u, d, Clamp(p, 0.0, 1.0))
  }

  /** The unclamped risk-neutral probability (growth - d) / (u - d). */
  function RiskNeutral(growth: real, u: real, d: real): (q: real)
    requires u > d
    ensures d <= growth <= u ==> 0.0 <= q <= 1.0
    ensures q * u + (1.0 - q) * d == growth
    ensures growth < d ==> q < 0.0
    ensures u < growth ==> q > 1.0
  {
    Ratio(growth - d, u - d)
  }

  /** With sigma >= 0 and dt > 0 the up factor is at least one and d = 1/u undoes it. */
  lemma StepFactors(m: Transcendentals, sigma: real, dt: real)
    requires Sound(m) && sigma >= 0.0 && dt > 0.0
    ensures UpFactor(m, sigma, dt) >= 1.0
    ensures 0.0 < 1.0 / UpFactor(m, sigma, dt) <= 1.0
    ensures UpFactor(m, sigma, dt) * (1.0 / UpFactor(m, sigma, dt)) == 1.0
  {
    var s := m.sqrt(dt);
    assert s >= 0.0;
    MulLeft(sigma, 0.0, s);
    var u := m.exp(Diffusion(m, sigma, dt));
    assert u >= 1.0;
    assert (1.0 / u) * u == 1.0;
  }

  /** The pricer invariant: what every successfully constructed pricer satisfies. */
  ghost predicate Valid(pr: Pricer)
  {
    && Sound(pr.math)
    && Admissible(pr.S, pr.K, pr.T, pr.N, pr.sigma)
    && Derive(pr.T, pr.N, pr.sigma, pr.r, pr.math) == LatticeConstants(pr.dt, pr.u, pr.d, pr.p)
  }

  /** The BinomialPricer constructor: throws on inadmissible input, otherwise
      stores the inputs and the derived constants. */
  function Construct(S: real, K: real, r: real, T: real, N: int, sigma: real, m: Transcendentals): (res: Result<Pricer>)
    requires Sound(m)
    ensures res.Err? <==> !Admissible(S, K, T, N, sigma)
    ensures res.Err? ==> Validate(S, K, T, N, sigma) == Rejected(res.error)
    ensures res.Ok? ==> Valid(res.value)
    ensures res.Ok? ==>
              && res.value.S == S && res.value.K == K && res.value.r == r
              && res.value.T == T && res.value.N == N && res.value.sigma == sigma
              && res.value.math == m
  {
    match Validate(S, K, T, N, sigma)
    case Rejected(e) => Err(e)
    case Accepted =>
      var c := Derive(T, N, sigma, r, m);
      Ok(Pricer(S, K, r, T, N, sigma, c.dt, c.u, c.d, c.p, m))
  }

  /** The per-step discount factor exp(-r dt) used by every pricing loop. */
  function Discount(pr: Pricer): (dsc: real)
    ensures Sound(pr.math) ==> dsc > 0.0
  {
    pr.math.exp(-RateTime(pr.r, pr.dt))
  }

  /** The shape of the lattice: a positive spot and recombining factors with u >= 1. */
  predicate Recombining(pr: Pricer)
  {
    pr.S > 0.0 && pr.u >= 1.0 && pr.u * pr.d == 1.0
  }

  /** The consequences of the pricer invariant the pricing proofs use. */
  lemma ValidFacts(pr: Pricer)
    requires Valid(pr)
    ensures pr.N > 0 && pr.S > 0.0 && pr.K > 0.0 && Recombining(pr)
    ensures pr.u >= 1.0 && 0.0 < pr.d <= 1.0 && pr.u * pr.d == 1.0
    ensures 0.0 <= pr.p <= 1.0
    ensures Discount(pr) > 0.0
    ensures pr.u == pr.d <==> pr.u == 1.0
    ensures pr.T == 0.0 ==> pr.u == 1.0 && pr.d == 1.0 && pr.p == 0.5 && Discount(pr) == 1.0
  {
    if pr.T == 0.0 {
      assert pr.dt == 0.0;
      assert -RateTime(pr.r, pr.dt) == 0.0;
      assert Discount(pr) == pr.math.exp(0.0);
    }
    if pr.u == pr.d {
      assert pr.u * pr.u == 1.0;
    }
  }

  /** With the unclamped risk-neutral probability the expected one-step
      growth factor of the spot equals the riskless growth factor. */
  lemma Martingale(pr: Pricer)
    requires Valid(pr)
    requires Abs(pr.u - pr.d) >= Epsilon && pr.d <= Growth(pr.math, pr.r, pr.dt) <= pr.u
    ensures pr.p * pr.u + (1.0 - pr.p) * pr.d == Growth(pr.math, pr.r, pr.dt)
  {
  }

  /** Discounting over one step undoes the riskless growth over that step. */
  lemma DiscountCancelsGrowth(pr: Pricer)
    requires ExpReciprocal(pr.math)
    ensures Discount(pr) * Growth(pr.math, pr.r, pr.dt) == 1.0
  {
    var x := RateTime(pr.r, pr.dt);
    assert pr.math.exp(x) * pr.math.exp(-x) == 1.0;
  }

  /** With a non-negative rate the one-step discount factor is at most one. */
  lemma DiscountAtMostOne(pr: Pricer)
    requires Valid(pr) && ExpReciprocal(pr.math) && pr.r >= 0.0
    ensures 0.0 < Discount(pr) <= 1.0
  {
    ValidFacts(pr);
    assert pr.dt >= 0.0 by {
      if pr.dt < 0.0 {
        MulLeft(pr.N as real, pr.dt, 0.0);
      }
    }
    MulLeft(pr.r, 0.0, pr.dt);
    DiscountCancelsGrowth(pr);
    var growth := Growth(pr.math, pr.r, pr.dt);
    assert growth >= 1.0;
    MulLeft(Discount(pr), 1.0, growth);
  }

  /** The two rejections the test suite checks: a zero spot and zero steps. */
  lemma RejectsTestInputs(m: Transcendentals)
    requires Sound(m)
    ensures Construct(0.0, 52.0, 0.05, 2.0, 100, 0.3, m).error == NonPositiveSpotOrStrike
    ensures Construct(50.0, 52.0, 0.05, 2.0, 0, 0.3, m).error == NonPositiveSteps
  {
  }
}

=== FILE: real_math.dfy ===
/**
 Real-number helpers standing in for the parts of <cmath> and <algorithm>
 that the lattice engine uses. Doubles are modelled as mathematical reals;
 `exp` and `sqrt` are not computed but supplied as functions that are only
 known to satisfy `Sound`.
 */
module RealMath {

  /** The transcendental functions the engine calls, as opaque values. */
  datatype Transcendentals = Transcendentals(exp: real -> real, sqrt: real -> real)

  /** The only facts about `exp` and `sqrt` the model relies on. */
  ghost predicate Sound(m: Transcendentals)
  {
    && m.exp(0.0) == 1.0
    && (forall x: real :: m.exp(x) > 0.0)
    && (forall x: real :: x >= 0.0 ==> m.exp(x) >= 1.0)
    && (forall x: real :: x >= 0.0 ==> m.sqrt(x) >= 0.0)
  }

  /** exp(-x) is the reciprocal of exp(x); only the parity results use it. */
  ghost predicate ExpReciprocal(m: Transcendentals)
  {
    forall x: real :: m.exp(x) * m.exp(-x) == 1.0
  }

  /** std::max on two reals: the least of the two upper bounds. */
  function Max(a: real, b: real): (r: real)
    ensures r >= a && r >= b
    ensures r == a || r == b
  {
    if a < b then b else a
  }

  /** std::fabs */
  function Abs(x: real): (r: real)
    ensures r >= 0.0
    ensures r == x || r == -x
  {
    if x < 0.0 then -x else x
  }

  /** std::clamp(x, lo, hi) */
  function Clamp(x: real, lo: real, hi: real): (r: real)
    requires lo <= hi
    ensures lo <= r <= hi
    ensures lo <= x <= hi ==> r == x
    ensures x < lo ==> r == lo
    ensures hi < x ==> r == hi
  {
    if x < lo then lo else if hi < x then hi else x
  }

  /** std::pow(x, n) for a non-negative integer exponent, computed exactly. */
  function Pow(x: real, n: nat): (r: real)
    ensures x > 0.0 ==> r > 0.0
    ensures x == 1.0 ==> r == 1.0
  {
    if n == 0 then 1.0 else x * Pow(x, n - 1)
  }

  /** Powers of a number in [0, 1] stay in [0, 1]. */
  lemma {:induction false} PowUnitInterval(x: real, n: nat)
    requires 0.0 <= x <= 1.0
    ensures 0.0 <= Pow(x, n) <= 1.0
  {
    if n > 0 {
      PowUnitInterval(x, n - 1);
      MulLeft(x, 0.0, Pow(x, n - 1));
      MulLeft(x, Pow(x, n - 1), 1.0);
    }
  }

  /** x / w for a positive w, with the sign and the comparison with one that
      the quotient inherits from x. */
  function Ratio(x: real, w: real): (q: real)
    requires w > 0.0
    ensures q * w == x
    ensures x < 0.0 ==> q < 0.0
    ensures 0.0 <= x ==> 0.0 <= q
    ensures x <= w ==> q <= 1.0
    ensures w < x ==> 1.0 < q
  {
    RatioFacts(x, w);
    x / w
  }

  lemma RatioFacts(x: real, w: real)
    requires w > 0.0
    ensures x / w * w == x
    ensures x < 0.0 ==> x / w < 0.0
    ensures 0.0 <= x ==> 0.0 <= x / w
    ensures x <= w ==> x / w <= 1.0
    ensures w < x ==> 1.0 < x / w
  {
    var q := x / w;
    assert q * w == x;
    if q < 1.0 {
      MulLeft(w, q, 1.0);
    } else {
      MulLeft(w, 1.0, q);
    }
  }

  /** (1 - p) x <= (1 - p) y for a probability p. */
  lemma ComplementMul(p: real, x: real, y: real)
    requires p <= 1.0 && x <= y
    ensures (1.0 - p) * x <= (1.0 - p) * y
  {
    assert (1.0 - p) * y - (1.0 - p) * x == (1.0 - p) * (y - x);
  }

  /** Multiplying both sides of an inequality by a non-negative factor. */
  lemma MulLeft(c: real, x: real, y: real)
    requires c >= 0.0 && x <= y
    ensures c * x <= c * y
    ensures c > 0.0 && x < y ==> c * x < c * y
  {
    assert c * y - c * x == c * (y - x);
  }

  /** Multiplying both sides of an inequality, on the right, by a non-negative factor. */
  lemma MulRight(c: real, x: real, y: real)
    requires c >= 0.0 && x <= y
    ensures x * c <= y * c
  {
    MulLeft(c, x, y);
  }

  /** Negating both numerator and denominator leaves a quotient unchanged. */
  lemma DivNegate(x: real, y: real)
    requires y != 0.0
    ensures (-x) / (-y) == x / y
  {
    DivUnique(-x, -y, x / y);
  }

  /** A real quotient is the unique solution of the corresponding product. */
  lemma DivUnique(x: real, y: real, q: real)
    requires y != 0.0 && q * y == x
    ensures x / y == q
  {
  }

  /** Dividing and multiplying back by the same non-zero number cancels. */
  lemma DivCancel(x: real, y: real)
    requires y != 0.0
    ensures x / y * y == x
  {
  }

  /** A quotient of a non-negative number by a larger positive one lies in [0, 1]. */
  lemma UnitQuotient(x: real, y: real)
    requires 0.0 <= x <= y && y > 0.0
    ensures 0.0 <= x / y <= 1.0
  {
    assert x / y * y == x;
  }

  /** A quotient of a positive number by a larger one lies strictly inside (0, 1). */
  lemma StrictUnitQuotient(x: real, y: real)
    requires 0.0 < x < y
    ensures 0.0 < x / y < 1.0
  {
    var q := x / y;
    assert q * y == x;
    if q <= 0.0 {
      MulLeft(y, q, 0.0);
    }
    if q >= 1.0 {
      MulLeft(y, 1.0, q);
    }
  }
}

=== FILE: source_pricer.dfy ===
/**
 The .cpp implementation of BinomialPricer. Its constructor is the same as
 the header's (Parameters.Construct) and its European loops are the same
 backward induction (Induction.Price); its American prices are placeholders
 that return 0.0 whatever the parameters.
 */
module SourcePricer {
  import opened RealMath
  import opened Parameters
  import opened Lattice
  import opened Induction

  /** priceEuropeanCall / priceEuropeanPut: the lattice root value, never negative. */
  method PriceEuropean(pr: Pricer, kind: OptionKind) returns (v: real)
    requires Valid(pr)
    ensures v == NodeValue(pr, kind, European, 0, 0)
    ensures v >= 0.0
  {
    v := Price(pr, kind, European);
    ValidShape(pr);
    NodeNonNegative(pr, kind, European, 0, 0);
  }

  /** priceAmericanCall / priceAmericanPut as written: a constant zero. */
  method PriceAmerican(pr: Pricer, kind: OptionKind) returns (v: real)
    ensures v == 0.0
  {
    v := 0.0;
  }

  /** The placeholder breaks the order American >= European: a deep
      in-the-money call at zero maturity (S = 2, K = 1, one step) has European
      value 1 while PriceAmerican returns 0. The lattice induction with early
      exercise gives 1, as the dominance lemma requires. */
  lemma StubBelowEuropean(m: Transcendentals)
    requires Sound(m)
    ensures var res := Construct(2.0, 1.0, 0.0, 0.0, 1, 0.0, m);
            && res.Ok?
            && NodeValue(res.value, Call, European, 0, 0) == 1.0
            && NodeValue(res.value, Call, American, 0, 0) == 1.0
  {
    var pr := Construct(2.0, 1.0, 0.0, 0.0, 1, 0.0, m).value;
    ZeroMaturityNode(pr, Call, European, 0, 0);
    ZeroMaturityNode(pr, Call, American, 0, 0);
  }
}
